=== FILE: README.md ===
# Surface-roughness statistics report: a Dafny model

`taylorh.py` takes a CSV file exported by the Mountains surface-analysis
software and builds an Excel report from it. The report holds the mean and
standard deviation of every roughness parameter, in micrometres and again
in microinches. This project models the three deterministic parts of that
pipeline as pure functions and proves what they do.

- **Loading** (`Loader`, loader.dfy). `get_params`, `get_units` and
  `measurement_output_to_df` are modelled.
  - The file arrives as its CSV records. `None` stands for a cancelled file choice.
  - The header is the three fixed labels followed by `params[3:]`.
  - `Date` and `Time` are merged into one `Date_Time` column.
  - Every column from index 2 gets `", " + unit` appended.
  - The trailing column is dropped.
  - Every error the source catches becomes `None`: too few records, duplicate names, a parameter already called `Date_Time` (the name the merged column takes) when there are data records, a data record longer than the header, or a unit row that is too short.
  - A file with no data records is read as pandas' C reader reads an empty body: one empty column per header name and no Date/Time merge. The rename loop then starts at `Measurement File` and needs one unit more than the header has names. A unit row as long as the parameter row, as the export writes it, is too short, so such a file loads as `None`.
  - pandas' per-column typing is modelled:
    - a column whose present fields all parse as numbers is numeric;
    - otherwise the column is text;
    - pandas' missing-value tokens become `Blank`.
  - Parsing one decimal number is a parameter (`num`).
- **Unit conversion** (`Units`, units.dfy, on top of `Strings`, strings.dfy). `convert_to_metric` and `convert_to_standard` are modelled.
  - A column is chosen by substring tests on its name: `µin` (or `µm`) present, `Rmr` absent. `convert_to_metric` only looks from index 2 on.
  - A chosen column is scaled by 0.0254, as an exact `real`.
  - Every occurrence of the marker in its name is replaced, with Python's left-to-right, non-overlapping `str.replace`.
  - A chosen column holding text cannot be scaled: pandas raises, and the model returns `None`.
- **Report layout** (`Sheet`, sheet.dfy, and `Report`, report.dfy). This is the cell layout `save_to_excel` produces.
  - The worksheet is a sparse map from (row, column) to a cell. A cell holds a value and three formatting attributes: bold, the three-decimal number style, and wrapped text. The sheet also holds a map of column widths.
  - Modelled operations:
    - pandas' `to_excel`, with names bold in row 1;
    - openpyxl's `cell`, `insert_cols`, `max_row` and `max_column`;
    - the label, header, file-list and formatting loops.
  - `Report.Expected` states the finished report cell by cell. `Report.SaveToExcelLayout` proves that the sheet agrees with it at every position.
  - In the decimal rows (2, 3, 7, 8), the named style is assigned after the wrap alignment. In openpyxl that assignment replaces the whole style of the cell. So the model leaves those cells neither bold nor wrapped, which is what the code does.

When there is at least one data record, the loaded table has `|params| - 2` columns if the parameter row has at least three entries:
- the three fixed labels plus `params[3:]`;
- minus one for the Date/Time merge;
- minus one for the dropped trailing column.

With fewer entries it has one column.

When there are no data records, nothing is merged. The table then has `|params| - 1` columns, or 2 when the parameter row has fewer than three entries.

## Model

| member | source | states |
|---|---|---|
| Strings.ReplaceAll | taylorh.py:88 | with no occurrence of the marker the name is unchanged; with one, the result contains the replacement |
| Strings.ContainsIffOccurs | taylorh.py:86 | the substring test `w in s` holds exactly when `w` occurs at some position of `s` |
| Strings.NoMarkerLeft | taylorh.py:88 | after replacing `µin` by `µm` (or back) no occurrence of the replaced marker is left |
| Strings.WordNotCreated | taylorh.py:88 | renaming cannot create a word such as `Rmr` that was not in the name before |
| Strings.SwapRoundTrip | taylorh.py:96 | replacing `µin` by `µm` and then `µm` by `µin` restores a name that held no `µm` |
| Units.ScaleCells | taylorh.py:87 | a column scales exactly when it is numeric; every value is scaled, NaN stays NaN, the length is kept |
| Units.ConvertColumn | taylorh.py:86-89 | an unchosen column is returned unchanged; a chosen one is renamed and scaled, and fails only when it is not numeric |
| Units.Convert | taylorh.py:84-99 | fails exactly when some column fails; otherwise it keeps the column count and order, each column converted in place |
| Units.ToMetric | taylorh.py:84-89 | from index 2, the columns naming `µin` and not `Rmr` are multiplied by 0.0254 and renamed to `µm`; all others are kept; it fails exactly when such a column is not numeric or two such columns share a name |
| Units.ToStandard | taylorh.py:91-99 | from index 0, the columns naming `µm` and not `Rmr` are divided by 0.0254 and renamed to `µin`; all others are kept; the count and order are kept; it fails exactly when such a column is not numeric or two such columns share a name |
| Units.RepeatedNameFails | taylorh.py:91-99 | two numeric columns both named `Sa, µm` make the imperial conversion fail: the second lookup by that name finds it renamed |
| Units.ColumnRoundTrip | taylorh.py:84-99 | a numeric `µin` column at index 2 or later, with no `µm` or `Rmr` in its name, comes back with its name and values after metric then imperial conversion |
| Units.MetricThenStandard | taylorh.py:84-99 | the same round trip for such a column inside a whole table: after the metric conversion the column converts back to itself, so a successful imperial conversion restores it |
| Units.ConvertIdempotent | taylorh.py:84-99 | converting an already converted table again changes nothing |
| Loader.DataRows | taylorh.py:66-68 | blank lines are skipped, whether empty or made only of spaces and tabs, and every other record is kept |
| Loader.DataRowsPrefix | taylorh.py:66-68 | the data rows of a prefix of the records are a prefix of the data rows |
| Loader.DataRowsKeepsOrder | taylorh.py:66-68 | the data rows keep the non-blank records in file order, one for one: record `i` follows the data rows of the records before it |
| Loader.ParseColumn | taylorh.py:66-68 | a field is NaN exactly when it is a missing-value token; the column is numeric exactly when every present field parses, and is text otherwise |
| Loader.AppendUnits | taylorh.py:70-72 | from index 2, each column gets `", " + units[3+i]`; it fails exactly when the unit row is too short |
| Loader.Build | taylorh.py:66-73 | it fails exactly when the unit row is too short; the result has one column fewer than the merged frame |
| Loader.FrameRectangular | taylorh.py:66-68 | every column `read_csv` produces has one cell per data row |
| Loader.BuildNames | taylorh.py:65-73 | the names are `Date_Time`, `Measurement File`, then `params[m+1] + ", " + units[m+1]` |
| Loader.BuildShape | taylorh.py:66-73 | every kept column has one cell per data row; the stamps are joined from the first two fields and column `m` is typed from field `m+1` |
| Loader.BuildEmpty | taylorh.py:66-73 | without data records, `Date` and `Time` stay apart, every name from `Measurement File` on gets the unit one place further on, and it fails exactly when the unit row is no longer than the header |
| Loader.Assemble | taylorh.py:63-81 | succeeds exactly for distinct names, fitting records and a long enough unit row, and, when there are data records, no parameter called `Date_Time`; with data records it has `|params|-2` columns with the merged names in order, without them the header less its last name, each renamed from index 2 |
| Loader.Load | taylorh.py:58-81 | `None` for a cancelled choice or fewer than three records; otherwise as `Assemble` on records 2 and 3 and the data records after them |
| Loader.SpacesLineSkipped | taylorh.py:58-81 | a body of one line of spaces counts as no data, so with one unit per parameter the file loads as `None` |
| Loader.HeaderOnlyFails | taylorh.py:58-81 | a file of only its three header records, with one unit per parameter, loads as `None` |
| Loader.LoadedCells | taylorh.py:66-68 | the stamps are joined from the first two fields; column `m` holds field `m+1` of each record, typed |
| Sheet.MaxRowBounds | taylorh.py:164 | `max_row` bounds every row in use, and is attained unless it is 1 |
| Sheet.MaxColumnBounds | taylorh.py:207 | `max_column` bounds every column in use, and is attained unless it is 1 |
| Sheet.MaxRowIs | taylorh.py:198 | a cell in row `m` and none below it make `max_row` equal `m` |
| Sheet.MaxColumnIs | taylorh.py:207 | a cell in column `m` and none right of it make `max_column` equal `m` |
| Sheet.VisitAt | taylorh.py:178 | visiting a block creates an empty cell at each missing position of it and changes no value, format or width |
| Sheet.ShiftAt | taylorh.py:178 | the shift moves every cell at or right of the column one place right, empties the column, and leaves the widths alone |
| Sheet.InsertColumnAt | taylorh.py:178 | `insert_cols(idx)` first creates every missing cell of rows 1 to `max_row` from the column to `max_column`, then moves all of them one place right; the column is empty and the widths stay |
| Sheet.WriteDownAt | taylorh.py:203-204 | list entry `j` lands at row `row + j` of the column; no other cell changes |
| Sheet.WriteBlockAt | taylorh.py:172-175 | value `j` of table column `c` lands at (`row + j`, `col + c`); no other cell changes |
| Sheet.WriteHeadersAt | taylorh.py:189-193 | name `c` lands in bold at (`row`, `col + c`); no other cell changes |
| Sheet.InsertColumnWidths | taylorh.py:178 | `insert_cols` leaves every column width where it was |
| Sheet.WriteDownWidths | taylorh.py:203-204 | writing the file list leaves the column widths alone |
| Sheet.WriteBlockWidths | taylorh.py:172-175 | writing the imperial values leaves the column widths alone |
| Sheet.WriteHeadersWidths | taylorh.py:189-193 | writing the bold names leaves the column widths alone |
| Report.FrameAt | taylorh.py:159-160 | `to_excel` puts the bold names in row 1 and the mean and deviation in rows 2-3 from column A, and nothing else |
| Report.StartRowIsSeven | taylorh.py:164-170 | the metric table is 3 rows tall, so the imperial values start in row 7 |
| Report.MarkerOnHeaderRow | taylorh.py:184-191 | the marker row `start_row - 1` is the hard-coded imperial header row 6 |
| Report.BothAt | taylorh.py:172-175 | the imperial values fill rows 7-8 under the metric table |
| Report.BothBounds | taylorh.py:172-178 | before the insertion the tables reach down to row 8 and across to the last statistics column |
| Report.ShiftedBoth | taylorh.py:178 | the insertion fills the block of rows 1-8 and the statistics columns, and moves it one column right |
| Report.PlacedAt | taylorh.py:178 | after the shift both tables start in column B, column A is empty, and rows 4-6 between them hold the empty cells the insertion created |
| Report.LabelColumnAt | taylorh.py:181-188 | column A gets `""`, `AVG`, `STDEV`, the bold `FREEDOM UNITS!` in row 6, then `AVG`, `STDEV` |
| Report.LabelAt | taylorh.py:189-193 | the imperial names go in bold along row 6 from column B |
| Report.LabelledAt | taylorh.py:178-193 | both labelled tables, cell by cell |
| Report.LabelledWithin | taylorh.py:178-193 | every cell of the labelled sheet lies in rows 1-8 and columns A up to the last table column |
| Report.FilesRowIsTwelve | taylorh.py:198 | nothing lies below row 8, so the file list starts at row 12 |
| Report.ListFilesAt | taylorh.py:198-204 | the bold `Processed Files:` goes in column B of the start row; file `i` goes in column A, `i + 1` rows below |
| Report.ListedAt | taylorh.py:159-204 | the sheet before formatting, cell by cell: the labelled tables, the marker at B12 and the files down column A from row 13, in list order |
| Report.LastColumn | taylorh.py:207 | `max_column` is one more than the number of statistics columns |
| Report.FormatAt | taylorh.py:207-214 | every cell of rows 1 up to the file-list row and columns 1 to `max_column` exists and is styled; no other cell changes |
| Report.FormatWidths | taylorh.py:207-209 | columns 1 to `max_column` get the given width; other widths stay |
| Report.GridMatches | taylorh.py:210-214 | inside the formatted grid, rows 2, 3, 7, 8 carry the decimal style without bold or wrap, and every other row is wrapped |
| Report.OutsideMatches | taylorh.py:198-204 | outside the grid only the file list remains, unformatted |
| Report.ReportAt | taylorh.py:159-214 | the formatted sheet equals the reference layout `Expected` at every position |
| Report.ListedWidths | taylorh.py:159-204 | no step before the formatting loop sets a column width |
| Report.StandardMirrors | taylorh.py:150 | the imperial copy has as many columns as the statistics table, two values each |
| Report.SaveToExcel | taylorh.py:144-217 | the report is produced exactly when the imperial conversion succeeds |
| Report.SaveToExcelLayout | taylorh.py:144-214 | whenever the conversion succeeds, every cell of the report is as `Expected` describes |
| Report.SaveToExcelWidths | taylorh.py:207-209 | exactly columns A up to the last table column get the constant width |

## Left out

- `get_data_file_path` and the `messagebox`/`tkinter` calls are user interface (taylorh.py:16-36, 76-80). The cancelled choice is the `None` input, and the error dialog is the `None` result.
- Opening and decoding the file in ISO-8859-1, and splitting it into records, are left out. The model starts from the records. Parsing a number is the parameter `num`, and date/time fields are kept as text in `Stamp`.
- Loader.DataRows: the model sees records, not the raw line. So a quoted field of spaces standing alone on its line is skipped like an unquoted one, although pandas keeps it.
- Loader.Fits: a data record longer than the header is treated as a parse error. pandas instead uses the extra leading fields as an index. That reshaping is not modelled.
- Loader.Assemble: the rename loop renames by position and assumes that no new name collides with a later column name. pandas renames by label, so on a collision it would rename both columns, and the final drop would remove every column with the last name.
- `plot_boxplots` is plotting (taylorh.py:102-127).
- `generate_stats_table` is left out (taylorh.py:131-141). It is floating-point mean and deviation, rounded to three significant figures. The report takes the statistics table as its input, with two numeric rows. That function selects `df.columns[3:]`, which also skips the first parameter after the Date/Time merge; this is not modelled.
- `main` is orchestration with a wall-clock file name and `sleep` (taylorh.py:221-237). It fails when the loader returns `None`.
- Units.ToMetric: values are exact reals, so the round-off of the floating-point multiply and divide by 0.0254 is not modelled.
- Units.ToMetric: a chosen name from index 2 on that also names column 0 or 1 makes the source convert and rename that column too, because it selects columns by name. The model converts only from index 2. A loaded table's first two names are `Date_Time` and `Measurement File`, which are never chosen.
- Loader.Assemble: the reading of a file without data records follows pandas' C reader, which returns the empty header columns before merging dates. That reader is not part of this model.
- Units.ToMetric: when a chosen column holds text, the source has already converted the columns before it when it raises. The model returns `None` and does not describe that partial state.
- Writing and saving the workbook are not modelled, nor pandas' header borders and centred alignment. Of the styles, only bold, the three-decimal style and wrapping are kept.
- Report.SaveToExcelLayout: the layout is stated for a statistics table of two numeric rows, the mean and deviation that `generate_stats_table` returns. Other shapes would move the computed rows away from the hard-coded row 6, and they are not described. The layout also needs at least one statistics column. With none, for example from a one-parameter export whose `df.columns[3:]` is empty, `max_row` is 1, so the marker lands in A4 rather than A6. That case is not described either.
- Sheet.WriteBlockAt: the NaN deviation of a one-sample column is written as a `Blank` value.
- Report.SaveToExcel: the console printing of `df.info()` is omitted.

=== FILE: frame.dfy ===
/** The in-memory measurement table: an ordered sequence of named columns,
    as a pandas DataFrame holds them once loaded. */
module Frame {

  /** One value of a column. `Blank` is pandas' NaN (an empty or NA field);
      `Stamp` is the combined date and time field, kept as its two raw parts. */
  datatype Cell = Blank | Num(x: real) | Text(s: string) | Stamp(date: string, time: string)

  datatype Column = Column(name: string, cells: seq<Cell>)

  /** Columns in table order; a column's position is its index. */
  type Table = seq<Column>

  /** A column pandas can do arithmetic on: numbers and NaN only. */
  predicate IsNumeric(cells: seq<Cell>) {
    forall j | 0 <= j < |cells| :: cells[j].Num? || cells[j].Blank?
  }

  /** Every column holds the same number of cells (one per row). */
  predicate IsRectangular(t: Table, rows: nat) {
    forall m | 0 <= m < |t| :: |t[m].cells| == rows
  }
}

=== FILE: loader.dfy ===
/** The loader of taylorh.py: `get_params`, `get_units` and
    `measurement_output_to_df`. The file arrives as its records, already split
    into fields by the CSV reader; `None` stands for a cancelled file choice.
    Reading a decimal number out of a field is pandas' float parser, given
    here as the parameter `num`. */
module Loader {
  import opened Wrappers
  import opened Frame

  type Record = seq<string>

  /** pandas' default spellings of a missing value. */
  const NaTokens: set<string> := {
    "", "#N/A", "#N/A N/A", "#NA", "-1.#IND", "-1.#QNAN", "-NaN", "-nan",
    "1.#IND", "1.#QNAN", "<NA>", "N/A", "NA", "NULL", "NaN", "None", "n/a", "nan", "null"
  }

  /** The three labels the loader puts in front of the parameter names. */
  const Leading: seq<string> := ["Date", "Time", "Measurement File"]

  /** `params[3:]`: empty when there are three entries or fewer. */
  function Tail(params: Record): (r: seq<string>)
    ensures |r| == if |params| <= 3 then 0 else |params| - 3
    ensures forall j | 0 <= j < |r| :: r[j] == params[j + 3]
  {
    if |params| <= 3 then [] else params[3..]
  }

  /** `["Date", "Time", "Measurement File"] + params[3:]` (taylorh.py:65). */
  function Header(params: Record): (h: seq<string>)
    ensures |h| == if |params| <= 3 then 3 else |params|
    ensures h[0] == "Date" && h[1] == "Time" && h[2] == "Measurement File"
    ensures forall j | 3 <= j < |h| :: h[j] == params[j]
  {
    Leading + Tail(params)
  }

  /** No name appears twice; `read_csv` refuses duplicate names. */
  predicate Distinct(names: seq<string>)
    decreases |names|
  {
    |names| == 0 || (names[0] !in names[1..] && Distinct(names[1..]))
  }

  /** The `j`-th field of a record; a short record reads as empty there. */
  function Field(row: Record, j: nat): string {
    if j < |row| then row[j] else ""
  }

  /** A line `read_csv` skips as blank: an empty line, which the CSV reader
      gives as no fields, or a line of nothing but spaces and tabs, which it
      gives as one field of them. */
  predicate BlankLine(record: Record) {
    || |record| == 0
    || (&& |record| == 1 && |record[0]| > 0
        && forall k | 0 <= k < |record[0]| :: record[0][k] == ' ' || record[0][k] == '\t')
  }

  /** The data records after the three header records, with blank lines
      skipped as `read_csv` skips them. */
  function DataRows(records: seq<Record>): (r: seq<Record>)
    ensures |r| <= |records|
    ensures forall i | 0 <= i < |r| :: !BlankLine(r[i]) && r[i] in records
    ensures forall i | 0 <= i < |records| :: !BlankLine(records[i]) ==> records[i] in r
    decreases |records|
  {
    if |records| == 0 then []
    else
      var front := DataRows(records[..|records| - 1]);
      var last := records[|records| - 1];
      assert forall i | 0 <= i < |records| - 1 :: records[i] == records[..|records| - 1][i];
      if BlankLine(last) then front else front + [last]
  }

  /** Skipping blank lines from a prefix of the records yields a prefix of
      the data rows. */
  lemma {:induction false} DataRowsPrefix(records: seq<Record>, n: nat)
    requires n <= |records|
    ensures DataRows(records[..n]) <= DataRows(records)
    decreases |records|
  {
    if n < |records| {
      var init := records[..|records| - 1];
      assert init[..n] == records[..n];
      DataRowsPrefix(init, n);
    } else {
      assert records[..n] == records;
    }
  }

  /** Blank lines aside, the data rows keep the records in file order and
      one for one: a non-blank record `i` is the data row that follows those
      taken from the records before it. */
  lemma DataRowsKeepsOrder(records: seq<Record>, i: nat)
    requires i < |records| && !BlankLine(records[i])
    ensures |DataRows(records[..i])| < |DataRows(records)|
    ensures DataRows(records)[|DataRows(records[..i])|] == records[i]
  {
    var upto := records[..i + 1];
    assert upto[..i] == records[..i];
    assert DataRows(upto) == DataRows(records[..i]) + [records[i]];
    DataRowsPrefix(records, i + 1);
  }

  /** Every data record fits under the header; a longer one is a parse error
      here. */
  predicate Fits(rows: seq<Record>, width: nat) {
    forall i | 0 <= i < |rows| :: |rows[i]| <= width
  }

  /** Every present field of a column reads as a number. */
  predicate AllNumbers(fields: seq<string>, num: string -> Option<real>) {
    forall j | 0 <= j < |fields| :: fields[j] in NaTokens || num(fields[j]).Some?
  }

  /** pandas' column typing: a column whose present fields all read as
      numbers becomes numeric, otherwise every present field stays text;
      missing values are NaN either way. */
  function ParseColumn(fields: seq<string>, num: string -> Option<real>): (cells: seq<Cell>)
    ensures |cells| == |fields|
    ensures forall j | 0 <= j < |fields| :: cells[j].Blank? <==> fields[j] in NaTokens
    ensures AllNumbers(fields, num) <==> IsNumeric(cells)
    ensures forall j | 0 <= j < |fields| && fields[j] !in NaTokens ::
      cells[j] == if AllNumbers(fields, num) then Num(num(fields[j]).value) else Text(fields[j])
  {
    var numeric := AllNumbers(fields, num);
    var cells := seq(|fields|, j requires 0 <= j < |fields| =>
      if fields[j] in NaTokens then Blank
      else if numeric then Num(num(fields[j]).value)
      else Text(fields[j]));
    assert !numeric ==> exists j :: 0 <= j < |fields| && fields[j] !in NaTokens && cells[j].Text?;
    cells
  }

  /** The `j`-th field of every data row. */
  function FieldsAt(rows: seq<Record>, j: nat): (r: seq<string>)
    ensures |r| == |rows|
    ensures forall i | 0 <= i < |rows| :: r[i] == Field(rows[i], j)
  {
    seq(|rows|, i requires 0 <= i < |rows| => Field(rows[i], j))
  }

  /** `read_csv(..., names=header, parse_dates=[["Date", "Time"]])`: the Date
      and Time fields become one `Date_Time` column in front, followed by one
      typed column per remaining header name. */
  function ReadFrame(header: seq<string>, rows: seq<Record>, num: string -> Option<real>): (t: Table)
    requires |header| >= 3
    ensures |t| == |header| - 1
    ensures t[0].name == "Date_Time" && |t[0].cells| == |rows|
    ensures forall i | 0 <= i < |rows| :: t[0].cells[i] == Stamp(Field(rows[i], 0), Field(rows[i], 1))
    ensures forall m | 1 <= m < |t| :: t[m] == Column(header[m + 1], ParseColumn(FieldsAt(rows, m + 1), num))
  {
    var stamps := seq(|rows|, i requires 0 <= i < |rows| => Stamp(Field(rows[i], 0), Field(rows[i], 1)));
    [Column("Date_Time", stamps)] +
      seq(|header| - 2, k requires 0 <= k < |header| - 2 =>
        Column(header[k + 2], ParseColumn(FieldsAt(rows, k + 2), num)))
  }

  /** Every column `read_csv` produces holds one cell per data row. */
  lemma FrameRectangular(header: seq<string>, rows: seq<Record>, num: string -> Option<real>)
    requires |header| >= 3
    ensures IsRectangular(ReadFrame(header, rows, num), |rows|)
  {
    var frame := ReadFrame(header, rows, num);
    forall m | 1 <= m < |frame|
      ensures |frame[m].cells| == |rows|
    {
      assert frame[m] == Column(header[m + 1], ParseColumn(FieldsAt(rows, m + 1), num));
    }
  }

  /** The rename loop (taylorh.py:70-72): every column from index 2 gets
      `", " + units[3 + i]` appended, which is the unit at the column's
      original position `m + 1`; a unit row too short raises an IndexError. */
  function AppendUnits(t: Table, units: Record): (r: Option<Table>)
    ensures r.Some? <==> |t| <= 2 || |t| < |units|
    ensures r.Some? ==> |r.value| == |t|
    ensures r.Some? ==> forall m | 0 <= m < |t| && m < 2 :: r.value[m] == t[m]
    ensures r.Some? ==> forall m | 2 <= m < |t| ::
      r.value[m] == Column(t[m].name + ", " + units[m + 1], t[m].cells)
    decreases |t|
  {
    if |t| <= 2 then Some(t)
    else
      var front :- AppendUnits(t[..|t| - 1], units);
      var m := |t| - 1;
      if m + 1 < |units| then Some(front + [Column(t[m].name + ", " + units[m + 1], t[m].cells)])
      else None
  }

  /** Reading, renaming and dropping the trailing column (taylorh.py:66-73),
      for a header `read_csv` accepts. */
  function Build(header: seq<string>, units: Record, rows: seq<Record>, num: string -> Option<real>): (r: Option<Table>)
    requires |header| >= 3
    ensures r.Some? <==> |header| <= 3 || |header| <= |units|
    ensures r.Some? ==> |r.value| == |header| - 2
  {
    var named :- AppendUnits(ReadFrame(header, rows, num), units);
    Some(named[..|named| - 1])
  }

  /** The names of what `Build` returns: `Date_Time` first, the file name
      column second, every later column renamed with its unit. */
  lemma BuildNames(header: seq<string>, units: Record, rows: seq<Record>, num: string -> Option<real>)
    requires |header| >= 3 && Build(header, units, rows, num).Some?
    ensures var t := Build(header, units, rows, num).value;
      && t[0].name == "Date_Time"
      && (|t| >= 2 ==> t[1].name == header[2])
      && (forall m | 2 <= m < |t| :: t[m].name == header[m + 1] + ", " + units[m + 1])
  {
    var named := AppendUnits(ReadFrame(header, rows, num), units).value;
    var kept := named[..|named| - 1];
    assert kept == Build(header, units, rows, num).value;
    assert forall m | 0 <= m < |kept| :: kept[m] == named[m];
  }

  /** The cells of what `Build` returns: one per data row in every column,
      the stamps joined from the first two fields, and column `m` typed from
      field `m + 1` of every row. */
  lemma BuildShape(header: seq<string>, units: Record, rows: seq<Record>, num: string -> Option<real>)
    requires |header| >= 3 && Build(header, units, rows, num).Some?
    ensures var t := Build(header, units, rows, num).value;
      && IsRectangular(t, |rows|)
      && (forall i | 0 <= i < |rows| :: t[0].cells[i] == Stamp(Field(rows[i], 0), Field(rows[i], 1)))
      && (forall m | 1 <= m < |t| :: t[m].cells == ParseColumn(FieldsAt(rows, m + 1), num))
  {
    var frame := ReadFrame(header, rows, num);
    FrameRectangular(header, rows, num);
    var named := AppendUnits(frame, units).value;
    assert forall m | 0 <= m < |named| :: named[m].cells == frame[m].cells;
    var kept := named[..|named| - 1];
    assert kept == Build(header, units, rows, num).value;
    assert forall m | 0 <= m < |kept| :: kept[m].cells == frame[m].cells;
  }

  /** `read_csv` on a file with no data records: pandas' C reader stops at
      its first chunk and returns one empty column per header name, before
      the Date/Time merge would run. */
  function EmptyFrame(header: seq<string>): (t: Table)
    ensures |t| == |header| && IsRectangular(t, 0)
    ensures forall m | 0 <= m < |t| :: t[m].name == header[m]
  {
    seq(|header|, m requires 0 <= m < |header| => Column(header[m], []))
  }

  /** Renaming and dropping the trailing column (taylorh.py:69-73) when there
      are no data records: `Date` and `Time` stay apart, so the rename loop
      starts at `Measurement File` and needs a unit for every header name
      and one more. */
  function BuildEmpty(header: seq<string>, units: Record): (r: Option<Table>)
    requires |header| >= 3
    ensures r.Some? <==> |header| < |units|
    ensures r.Some? ==>
      && |r.value| == |header| - 1
      && IsRectangular(r.value, 0)
      && r.value[0].name == header[0] && r.value[1].name == header[1]
      && forall m | 2 <= m < |r.value| :: r.value[m].name == header[m] + ", " + units[m + 1]
  {
    var frame := EmptyFrame(header);
    var named :- AppendUnits(frame, units);
    assert |named| == |header|;
    var kept := named[..|named| - 1];
    assert forall m | 0 <= m < |kept| :: kept[m] == named[m];
    Some(kept)
  }

  /** The part of `measurement_output_to_df` inside its `try` once the header
      records have been read: duplicate names and over-long records make
      `read_csv` raise, and so does a parameter already called `Date_Time`
      (the name the joined date column takes) when there are data records to
      merge; a short unit row makes the rename loop raise. Without data
      records nothing is merged and the rename loop starts one column
      earlier. */
  function Assemble(params: Record, units: Record, rows: seq<Record>, num: string -> Option<real>): (r: Option<Table>)
    ensures r.Some? <==>
      && Distinct(Header(params))
      && Fits(rows, |Header(params)|)
      && if |rows| == 0 then |Header(params)| < |units|
         else "Date_Time" !in Header(params) && (|params| <= 3 || |params| <= |units|)
    ensures r.Some? && |rows| == 0 ==>
      && |r.value| == |Header(params)| - 1
      && r.value[0].name == "Date" && r.value[1].name == "Time"
      && (forall m | 2 <= m < |r.value| :: r.value[m].name == Header(params)[m] + ", " + units[m + 1])
      && IsRectangular(r.value, 0)
    ensures r.Some? && |rows| > 0 ==>
      && |r.value| == (if |params| >= 3 then |params| - 2 else 1)
      && r.value[0].name == "Date_Time"
      && (|r.value| >= 2 ==> r.value[1].name == "Measurement File")
      && (forall m | 2 <= m < |r.value| :: r.value[m].name == params[m + 1] + ", " + units[m + 1])
      && IsRectangular(r.value, |rows|)
  {
    var header := Header(params);
    if !Distinct(header) || !Fits(rows, |header|) then None
    else if |rows| == 0 then BuildEmpty(header, units)
    else if "Date_Time" in header then None
    else
      var r := Build(header, units, rows, num);
      if r.Some? then BuildNames(header, units, rows, num); BuildShape(header, units, rows, num); r else r
  }

  /** `measurement_output_to_df` (taylorh.py:58-81): header from record 2,
      units from record 3, data from record 4 on; the trailing column is
      dropped. Every failure the source catches is `None`. */
  function Load(file: Option<seq<Record>>, num: string -> Option<real>): (r: Option<Table>)
    ensures file.None? ==> r.None?
    ensures file.Some? && |file.value| < 3 ==> r.None?
    ensures file.Some? && |file.value| >= 3 ==>
      var params := file.value[1];
      var units := file.value[2];
      var rows := DataRows(file.value[3..]);
      && (r.Some? <==>
            && Distinct(Header(params))
            && Fits(rows, |Header(params)|)
            && if |rows| == 0 then |Header(params)| < |units|
               else "Date_Time" !in Header(params) && (|params| <= 3 || |params| <= |units|))
      && (r.Some? && |rows| == 0 ==>
            && |r.value| == |Header(params)| - 1
            && r.value[0].name == "Date" && r.value[1].name == "Time"
            && (forall m | 2 <= m < |r.value| :: r.value[m].name == Header(params)[m] + ", " + units[m + 1])
            && IsRectangular(r.value, 0))
      && (r.Some? && |rows| > 0 ==>
            && |r.value| == (if |params| >= 3 then |params| - 2 else 1)
            && r.value[0].name == "Date_Time"
            && (|r.value| >= 2 ==> r.value[1].name == "Measurement File")
            && (forall m | 2 <= m < |r.value| :: r.value[m].name == params[m + 1] + ", " + units[m + 1])
            && IsRectangular(r.value, |rows|))
  {
    if file.None? then None
    else if |file.value| < 3 then None
    else Assemble(file.value[1], file.value[2], DataRows(file.value[3..]), num)
  }

  /** A file holding only its three header records, with as many units as
      parameters as the export writes them: the rename loop runs out of
      units, so nothing is loaded. */
  lemma HeaderOnlyFails(num: string -> Option<real>)
    ensures Load(Some([["title"], ["d", "t", "f", "Sa", ""], ["", "", "", "u", "v"]]), num).None?
  {
    var file := [["title"], ["d", "t", "f", "Sa", ""], ["", "", "", "u", "v"]];
    assert file[3..] == [];
    assert |Header(file[1])| == 5;
  }

  /** A body of one line of spaces is blank: with one unit per parameter
      the file loads as nothing, as the header-only file does. */
  lemma SpacesLineSkipped(num: string -> Option<real>)
    ensures Load(Some([["title"], ["d", "t", "f", "Sa", ""], ["", "", "", "u", "v"], ["  "]]), num).None?
  {
    var file := [["title"], ["d", "t", "f", "Sa", ""], ["", "", "", "u", "v"], ["  "]];
    assert BlankLine(file[3]);
    assert file[3..][..0] == [];
    assert DataRows(file[3..]) == [];
    assert |Header(file[1])| == 5;
  }

  /** What the loaded table holds: the `Date_Time` stamps are joined from
      the first two fields of each data record, and every other column `m`
      holds field `m + 1` of each record, read as numbers when all its present
      fields are numbers and as text otherwise. */
  lemma LoadedCells(file: Option<seq<Record>>, num: string -> Option<real>)
    requires Load(file, num).Some?
    ensures file.Some? && |file.value| >= 3
    ensures var t := Load(file, num).value;
      var rows := DataRows(file.value[3..]);
      && (forall i | 0 <= i < |rows| :: t[0].cells[i] == Stamp(Field(rows[i], 0), Field(rows[i], 1)))
      && (forall m | 1 <= m < |t| :: t[m].cells == ParseColumn(FieldsAt(rows, m + 1), num))
  {
    var rows := DataRows(file.value[3..]);
    BuildShape(Header(file.value[1]), file.value[2], rows, num);
  }
}

=== FILE: report.dfy ===
/** The cell layout of `save_to_excel` (taylorh.py:144-217): the metric
    statistics table, its imperial mirror a fixed gap below, the list of
    processed files, and the formatting pass. Styles and fonts are reduced to
    three attributes of a cell; saving the workbook is not modelled. */
module Report {
  import opened Wrappers
  import opened Frame
  import opened Units
  import opened Sheet

  /** Blank rows between the blocks of the report. */
  const Gap: int := 3
  /** The row the imperial column names are written to, fixed in the source. */
  const ImperialHeaderRow: int := 6
  /** The rows given the three-decimal number style, fixed in the source. */
  const DecimalRows: set<int> := {2, 3, 7, 8}

  /** `df.to_excel(writer, index=False)` on a fresh sheet: the column names
      along row 1 in pandas' bold header style, the values below them. */
  function WriteFrame(t: Table): Sheet {
    WriteBlock(WriteHeaders(Empty, t, 1, 1), t, 2, 1)
  }

  /** The first imperial row: the gap of blank rows is left below the last
      row the metric table occupies. */
  function StartRow(stats: Table): int {
    MaxRow(WriteFrame(stats)) + Gap + 1
  }

  /** The metric table, then the imperial values from the first imperial
      row on, then a new empty column A (taylorh.py:159-178). */
  function PlaceTables(stats: Table, standard: Table): Sheet {
    InsertColumn(Both(stats, standard), 1)
  }

  /** The row labels, the bold marker above the imperial table, and the bold
      imperial column names in the hard-coded row (taylorh.py:181-193). */
  function Label(s: Sheet, start: int, standard: Table): Sheet {
    WriteHeaders(LabelColumn(s, start), standard, ImperialHeaderRow, 2)
  }

  function Labelled(stats: Table, standard: Table): Sheet {
    Label(PlaceTables(stats, standard), StartRow(stats), standard)
  }

  /** The row of the file list: the gap of blank rows is left below the
      lowest row in use once both tables are labelled. */
  function FilesRow(stats: Table, standard: Table): int {
    MaxRow(Labelled(stats, standard)) + Gap + 1
  }

  /** The bold `Processed Files:` marker in column B and the files below it
      in column A, in list order (taylorh.py:198-204). */
  function ListFiles(s: Sheet, first: int, files: seq<Cell>): Sheet {
    WriteDown(Embolden(Put(s, (first, 2), Text("Processed Files:")), (first, 2)), files, first + 1, 1)
  }

  function Listed(stats: Table, standard: Table, files: seq<Cell>): Sheet {
    ListFiles(Labelled(stats, standard), FilesRow(stats, standard), files)
  }

  /** The cells the formatting loop visits: rows above `below`, columns 1 to
      `lastCol`. */
  predicate InGrid(p: Pos, lastCol: int, below: int) {
    1 <= p.0 < below && 1 <= p.1 <= lastCol
  }

  function Grid(lastCol: int, below: int): set<Pos> {
    set row: int, col: int | 1 <= row < below && 1 <= col <= lastCol :: (row, col)
  }

  /** The column numbers 1 to `lastCol`. */
  function Columns(lastCol: int): (r: set<int>)
    ensures forall c :: c in r <==> 1 <= c <= lastCol
    decreases lastCol
  {
    if lastCol < 1 then {} else Columns(lastCol - 1) + {lastCol}
  }

  /** A visited cell gets wrapped text; in the decimal rows the named style is
      assigned afterwards and replaces font and alignment, so those cells end
      up neither bold nor wrapped. */
  function Styled(e: Entry, row: int): Entry {
    if row in DecimalRows then e.(bold := false, decimal := true, wrap := false)
    else e.(wrap := true)
  }

  /** The formatting loop (taylorh.py:207-214): one width for every column up
      to `lastCol`, and every cell of the grid created and styled. */
  function Format(s: Sheet, lastCol: int, below: int, width: int): Sheet {
    var keys := s.cells.Keys + Grid(lastCol, below);
    Sheet(map p | p in keys :: if InGrid(p, lastCol, below) then Styled(At(s, p), p.0) else At(s, p),
          s.widths + map c | c in Columns(lastCol) :: width)
  }

  /** The cell at `p`, or `None` where the sheet has none. */
  function Lookup(s: Sheet, p: Pos): Option<Entry> {
    if p in s.cells then Some(s.cells[p]) else None
  }

  /** Every cell of the grid exists afterwards and is styled; every other
      cell is untouched. */
  lemma FormatAt(s: Sheet, lastCol: int, below: int, width: int, q: Pos)
    ensures Lookup(Format(s, lastCol, below, width), q) ==
      if InGrid(q, lastCol, below) then Some(Styled(At(s, q), q.0)) else Lookup(s, q)
  {
    if InGrid(q, lastCol, below) {
      assert q == (q.0, q.1);
      assert q in Grid(lastCol, below);
    }
  }

  /** Columns 1 to `lastCol` get the given width, other widths stay. */
  lemma FormatWidths(s: Sheet, lastCol: int, below: int, width: int, c: int)
    ensures var w := Format(s, lastCol, below, width).widths;
      && (c in w <==> c in s.widths || 1 <= c <= lastCol)
      && (1 <= c <= lastCol ==> w[c] == width)
      && (c in s.widths && !(1 <= c <= lastCol) ==> w[c] == s.widths[c])
  {
  }

  /** `save_to_excel` (taylorh.py:144-217) up to saving the workbook. It fails
      exactly when `convert_to_standard` does. */
  function SaveToExcel(stats: Table, files: seq<Cell>, width: int): (r: Option<Sheet>)
    ensures r.Some? <==> ToStandard(stats).Some?
  {
    var standard :- ToStandard(stats);
    var listed := Listed(stats, standard, files);
    Some(Format(listed, MaxColumn(listed), FilesRow(stats, standard), width))
  }

  /** The statistics table the report is written from: at least one
      parameter column, each holding its mean and its standard deviation as
      numbers (NaN for the deviation of a single measurement). */
  predicate StatsShape(stats: Table) {
    && |stats| >= 1
    && IsRectangular(stats, 2)
    && forall c | 0 <= c < |stats| :: IsNumeric(stats[c].cells)
  }

  /** `standard` is an imperial mirror of `stats`: as many columns, two
      values each. */
  predicate Mirrors(stats: Table, standard: Table) {
    StatsShape(stats) && |standard| == |stats| && IsRectangular(standard, 2)
  }

  /** The label column of the two tables. */
  function RowLabel(row: int): string {
    if row == 2 || row == 7 then "AVG"
    else if row == 3 || row == 8 then "STDEV"
    else if row == 6 then "FREEDOM UNITS!"
    else ""
  }

  /** A cell with a value and no formatting. */
  function Plain(v: Cell): Entry {
    Entry(v, false, false, false)
  }

  /** A bold cell. */
  function Bold(v: Cell): Entry {
    Entry(v, true, false, false)
  }

  /** The finished report for a statistics table, stated cell by cell: what
      the cell at (`row`, `col`) holds, or `None` where the sheet has no
      cell. The metric table sits at rows 1-3 and the imperial one at rows
      6-8, both from column B with their labels in column A; the processed
      files follow the `Processed Files:` marker of row 12. */
  function Expected(stats: Table, standard: Table, files: seq<Cell>, row: int, col: int): Option<Entry>
    requires Mirrors(stats, standard)
  {
    var k := |stats|;
    if 1 <= row < 12 && 1 <= col <= k + 1 then
      var value :=
        if col == 1 then (if row in {1, 2, 3, 6, 7, 8} then Text(RowLabel(row)) else Blank)
        else if row == 1 then Text(stats[col - 2].name)
        else if row == 2 || row == 3 then stats[col - 2].cells[row - 2]
        else if row == 6 then Text(standard[col - 2].name)
        else if row == 7 || row == 8 then standard[col - 2].cells[row - 7]
        else Blank;
      var decimal := row in {2, 3, 7, 8};
      var bold := !decimal && (row == 6 || (row == 1 && col >= 2));
      Some(Entry(value, bold, decimal, !decimal))
    else if row == 12 && col == 2 then Some(Bold(Text("Processed Files:")))
    else if col == 1 && 13 <= row < 13 + |files| then Some(Plain(files[row - 13]))
    else None
  }

  /** `to_excel` writes the names in bold along row 1 and the mean and
      deviation below them, from column A. */
  lemma FrameAt(stats: Table, q: Pos)
    requires StatsShape(stats)
    ensures Lookup(WriteFrame(stats), q) ==
      if 1 <= q.1 <= |stats| && q.0 == 1 then Some(Bold(Text(stats[q.1 - 1].name)))
      else if 1 <= q.1 <= |stats| && 2 <= q.0 <= 3 then Some(Plain(stats[q.1 - 1].cells[q.0 - 2]))
      else None
  {
    var h := WriteHeaders(Empty, stats, 1, 1);
    WriteHeadersAt(Empty, stats, 1, 1, q);
    WriteBlockAt(h, stats, 2, 1, q);
  }

  /** The metric table fills rows 1 to 3, so the imperial values start in
      row 7. */
  lemma StartRowIsSeven(stats: Table)
    requires StatsShape(stats)
    ensures StartRow(stats) == 7
  {
    var f := WriteFrame(stats);
    forall p: Pos | p in f.cells
      ensures p.0 <= 3
    {
      FrameAt(stats, p);
    }
    FrameAt(stats, (3, 1));
    MaxRowIs(f, 3, (3, 1));
  }

  /** The marker row the source computes, just above the imperial values,
      is the row it hard-codes for the imperial names. */
  lemma MarkerOnHeaderRow(stats: Table)
    requires StatsShape(stats)
    ensures StartRow(stats) - 1 == ImperialHeaderRow
  {
    StartRowIsSeven(stats);
  }

  /** The two tables before the shift: the metric names in bold along row
      1, the metric values in rows 2 and 3, the imperial values in rows 7
      and 8, all from column A on. */
  function Stacked(stats: Table, standard: Table, q: Pos): Option<Entry>
    requires Mirrors(stats, standard)
  {
    if 1 <= q.1 <= |stats| && q.0 == 1 then Some(Bold(Text(stats[q.1 - 1].name)))
    else if 1 <= q.1 <= |stats| && 2 <= q.0 <= 3 then Some(Plain(stats[q.1 - 1].cells[q.0 - 2]))
    else if 1 <= q.1 <= |stats| && 7 <= q.0 <= 8 then Some(Plain(standard[q.1 - 1].cells[q.0 - 7]))
    else None
  }

  /** The imperial values sit in rows 7 and 8 under the metric ones. */
  lemma BothAt(stats: Table, standard: Table, q: Pos)
    requires Mirrors(stats, standard)
    ensures Lookup(Both(stats, standard), q) == Stacked(stats, standard, q)
  {
    StartRowIsSeven(stats);
    FrameAt(stats, q);
    WriteBlockAt(WriteFrame(stats), standard, 7, 1, q);
  }

  /** Before the shift the two tables reach down to row 8 and across to
      the last statistics column. */
  lemma BothBounds(stats: Table, standard: Table)
    requires Mirrors(stats, standard)
    ensures MaxRow(Both(stats, standard)) == 8 && MaxColumn(Both(stats, standard)) == |stats|
  {
    var b := Both(stats, standard);
    forall p: Pos | p in b.cells
      ensures p.0 <= 8 && p.1 <= |stats|
    {
      BothAt(stats, standard, p);
    }
    BothAt(stats, standard, (8, |stats|));
    MaxRowIs(b, 8, (8, |stats|));
    MaxColumnIs(b, |stats|, (8, |stats|));
  }

  /** Both tables after `insert_cols(1)`: everything one column right,
      column A empty, and the blank rows 4 to 6 between the tables filled
      with empty cells by the insertion. */
  function Tables(stats: Table, standard: Table, q: Pos): Option<Entry>
    requires Mirrors(stats, standard)
  {
    if 2 <= q.1 <= |stats| + 1 && q.0 == 1 then Some(Bold(Text(stats[q.1 - 2].name)))
    else if 2 <= q.1 <= |stats| + 1 && 2 <= q.0 <= 3 then Some(Plain(stats[q.1 - 2].cells[q.0 - 2]))
    else if 2 <= q.1 <= |stats| + 1 && 4 <= q.0 <= 6 then Some(Fresh)
    else if 2 <= q.1 <= |stats| + 1 && 7 <= q.0 <= 8 then Some(Plain(standard[q.1 - 2].cells[q.0 - 7]))
    else None
  }

  /** The imperial values written below the metric table, before the shift. */
  function Both(stats: Table, standard: Table): Sheet {
    WriteBlock(WriteFrame(stats), standard, StartRow(stats), 1)
  }

  /** The shift in terms of the sheet before it: the block of rows 1 to 8
      and the statistics columns ends up filled and one column right. */
  lemma ShiftedBoth(stats: Table, standard: Table, q: Pos)
    requires Mirrors(stats, standard)
    ensures Lookup(PlaceTables(stats, standard), q) ==
      if q.1 < 1 then Lookup(Both(stats, standard), q)
      else if q.1 == 1 then None
      else if InRect((q.0, q.1 - 1), 8, 1, |stats|) then Some(At(Both(stats, standard), (q.0, q.1 - 1)))
      else Lookup(Both(stats, standard), (q.0, q.1 - 1))
  {
    BothBounds(stats, standard);
    InsertColumnAt(Both(stats, standard), 1, q);
  }

  /** The shift of any sheet holding the two stacked tables at `q` and at
      its left neighbour. */
  lemma PlacedOver(stats: Table, standard: Table, p: Sheet, b: Sheet, q: Pos)
    requires Mirrors(stats, standard)
    requires Lookup(p, q) ==
      if q.1 < 1 then Lookup(b, q)
      else if q.1 == 1 then None
      else if InRect((q.0, q.1 - 1), 8, 1, |stats|) then Some(At(b, (q.0, q.1 - 1)))
      else Lookup(b, (q.0, q.1 - 1))
    requires Lookup(b, q) == Stacked(stats, standard, q)
    requires Lookup(b, (q.0, q.1 - 1)) == Stacked(stats, standard, (q.0, q.1 - 1))
    ensures Lookup(p, q) == Tables(stats, standard, q)
  {
  }

  lemma PlacedAt(stats: Table, standard: Table, q: Pos)
    requires Mirrors(stats, standard)
    ensures Lookup(PlaceTables(stats, standard), q) == Tables(stats, standard, q)
  {
    ShiftedBoth(stats, standard, q);
    BothAt(stats, standard, q);
    BothAt(stats, standard, (q.0, q.1 - 1));
    PlacedOver(stats, standard, PlaceTables(stats, standard), Both(stats, standard), q);
  }

  /** The label column A of the two tables (taylorh.py:181-188). */
  function LabelColumn(s: Sheet, start: int): Sheet {
    var s1 := Put(s, (1, 1), Text(""));
    var s2 := Put(s1, (2, 1), Text("AVG"));
    var s3 := Put(s2, (3, 1), Text("STDEV"));
    var s4 := Embolden(Put(s3, (start - 1, 1), Text("FREEDOM UNITS!")), (start - 1, 1));
    var s5 := Put(s4, (start, 1), Text("AVG"));
    Put(s5, (start + 1, 1), Text("STDEV"))
  }

  /** When the imperial values start in row 7 the labels fill rows 1-3 and
      6-8 of column A, the marker of row 6 in bold. */
  lemma LabelColumnAt(s: Sheet, q: Pos)
    ensures Lookup(LabelColumn(s, 7), q) ==
      if q.1 == 1 && q.0 in {1, 2, 3, 7, 8} then Some(At(s, q).(value := Text(RowLabel(q.0))))
      else if q.1 == 1 && q.0 == 6 then Some(At(s, q).(value := Text(RowLabel(6)), bold := true))
      else Lookup(s, q)
  {
  }

  /** What the labelling step does to any sheet when the imperial values
      start in row 7. */
  lemma LabelAt(s: Sheet, standard: Table, q: Pos)
    ensures Lookup(Label(s, 7, standard), q) ==
      if 2 <= q.1 < 2 + |standard| && q.0 == 6 then Some(At(LabelColumn(s, 7), q).(value := Text(standard[q.1 - 2].name), bold := true))
      else Lookup(LabelColumn(s, 7), q)
  {
    WriteHeadersAt(LabelColumn(s, 7), standard, ImperialHeaderRow, 2, q);
  }

  /** Both tables with their labels, the bold marker of row 6 and the bold
      imperial names along row 6. */
  function Labels(stats: Table, standard: Table, q: Pos): Option<Entry>
    requires Mirrors(stats, standard)
  {
    if q.1 == 1 && q.0 in {1, 2, 3, 7, 8} then Some(Plain(Text(RowLabel(q.0))))
    else if q.1 == 1 && q.0 == 6 then Some(Bold(Text(RowLabel(6))))
    else if 2 <= q.1 <= |stats| + 1 && q.0 == 6 then Some(Bold(Text(standard[q.1 - 2].name)))
    else Tables(stats, standard, q)
  }

  /** Labelling any sheet that holds the placed tables at `q`. */
  lemma LabelOver(stats: Table, standard: Table, p: Sheet, q: Pos)
    requires Mirrors(stats, standard) && Lookup(p, q) == Tables(stats, standard, q)
    ensures Lookup(Label(p, 7, standard), q) == Labels(stats, standard, q)
  {
    LabelAt(p, standard, q);
    LabelColumnAt(p, q);
  }

  /** The labelled sheet, cell by cell. */
  lemma LabelledAt(stats: Table, standard: Table, q: Pos)
    requires Mirrors(stats, standard)
    ensures Lookup(Labelled(stats, standard), q) == Labels(stats, standard, q)
  {
    StartRowIsSeven(stats);
    PlacedAt(stats, standard, q);
    LabelOver(stats, standard, PlaceTables(stats, standard), q);
  }

  /** The labelled layout occupies rows 1 to 8 and columns A up to the last
      table column. */
  lemma LabelsWithin(stats: Table, standard: Table, q: Pos)
    requires Mirrors(stats, standard) && Labels(stats, standard, q).Some?
    ensures 1 <= q.0 <= 8 && 1 <= q.1 <= |stats| + 1
  {
  }

  /** Every cell of the labelled sheet lies in rows 1 to 8 and columns A up
      to the last table column. */
  lemma LabelledWithin(stats: Table, standard: Table, q: Pos)
    requires Mirrors(stats, standard) && q in Labelled(stats, standard).cells
    ensures 1 <= q.0 <= 8 && 1 <= q.1 <= |stats| + 1
  {
    LabelledAt(stats, standard, q);
    LabelsWithin(stats, standard, q);
  }

  /** Nothing sits below row 8, so the file list starts in row 12. */
  lemma FilesRowIsTwelve(stats: Table, standard: Table)
    requires Mirrors(stats, standard)
    ensures FilesRow(stats, standard) == 12
  {
    var s := Labelled(stats, standard);
    forall p: Pos | p in s.cells
      ensures p.0 <= 8
    {
      LabelledWithin(stats, standard, p);
    }
    LabelledAt(stats, standard, (8, 1));
    MaxRowIs(s, 8, (8, 1));
  }

  /** What listing the files from row `first` does to any sheet. */
  lemma ListFilesAt(s: Sheet, first: int, files: seq<Cell>, q: Pos)
    ensures Lookup(ListFiles(s, first, files), q) ==
      if q == (first, 2) then Some(At(s, q).(value := Text("Processed Files:"), bold := true))
      else if q.1 == 1 && first < q.0 <= first + |files| then Some(At(s, q).(value := files[q.0 - first - 1]))
      else Lookup(s, q)
  {
    WriteDownAt(Embolden(Put(s, (first, 2), Text("Processed Files:")), (first, 2)), files, first + 1, 1, q);
  }

  /** The sheet before the formatting pass, stated cell by cell: the bold
      marker in B12 and the files down column A from row 13 below the
      labelled tables. */
  function Unformatted(stats: Table, standard: Table, files: seq<Cell>, q: Pos): Option<Entry>
    requires Mirrors(stats, standard)
  {
    if q == (12, 2) then Some(Bold(Text("Processed Files:")))
    else if q.1 == 1 && 13 <= q.0 < 13 + |files| then Some(Plain(files[q.0 - 13]))
    else Labels(stats, standard, q)
  }

  /** Listing the files from row 12 below any sheet that holds the
      labelled tables at `q` and leaves B12 empty. */
  lemma ListedOver(stats: Table, standard: Table, l: Sheet, files: seq<Cell>, q: Pos)
    requires Mirrors(stats, standard)
    requires Lookup(l, q) == Labels(stats, standard, q) && Lookup(l, (12, 2)) == Labels(stats, standard, (12, 2))
    ensures Lookup(ListFiles(l, 12, files), q) == Unformatted(stats, standard, files, q)
  {
    ListFilesAt(l, 12, files, q);
  }

  /** The sheet before the formatting pass, cell by cell. */
  lemma ListedAt(stats: Table, standard: Table, files: seq<Cell>, q: Pos)
    requires Mirrors(stats, standard)
    ensures Lookup(Listed(stats, standard, files), q) == Unformatted(stats, standard, files, q)
  {
    FilesRowIsTwelve(stats, standard);
    LabelledAt(stats, standard, q);
    LabelledAt(stats, standard, (12, 2));
    ListedOver(stats, standard, Labelled(stats, standard), files, q);
  }

  /** The last metric column is the rightmost one written. */
  lemma LastColumn(stats: Table, standard: Table, files: seq<Cell>)
    requires Mirrors(stats, standard)
    ensures MaxColumn(Listed(stats, standard, files)) == |stats| + 1
  {
    var s := Listed(stats, standard, files);
    FilesRowIsTwelve(stats, standard);
    forall p: Pos | p in s.cells
      ensures p.1 <= |stats| + 1
    {
      ListFilesAt(Labelled(stats, standard), 12, files, p);
      if p in Labelled(stats, standard).cells {
        LabelledWithin(stats, standard, p);
      }
    }
    ListedAt(stats, standard, files, (1, |stats| + 1));
    MaxColumnIs(s, |stats| + 1, (1, |stats| + 1));
  }

  /** The cell an absent entry stands for. */
  function Materialised(e: Option<Entry>): Entry {
    if e.Some? then e.value else Fresh
  }

  /** Inside the formatted grid the styled cells are the expected ones. */
  lemma GridMatches(stats: Table, standard: Table, files: seq<Cell>, q: Pos)
    requires Mirrors(stats, standard) && InGrid(q, |stats| + 1, 12)
    ensures Some(Styled(Materialised(Unformatted(stats, standard, files, q)), q.0)) == Expected(stats, standard, files, q.0, q.1)
  {
  }

  /** Outside the grid the formatting pass changes nothing. */
  lemma OutsideMatches(stats: Table, standard: Table, files: seq<Cell>, q: Pos)
    requires Mirrors(stats, standard) && !InGrid(q, |stats| + 1, 12)
    ensures Unformatted(stats, standard, files, q) == Expected(stats, standard, files, q.0, q.1)
  {
  }

  /** The report written from a statistics table and its imperial mirror. */
  lemma ReportAt(stats: Table, standard: Table, files: seq<Cell>, width: int, q: Pos)
    requires Mirrors(stats, standard)
    ensures var listed := Listed(stats, standard, files);
      Lookup(Format(listed, MaxColumn(listed), FilesRow(stats, standard), width), q) ==
        Expected(stats, standard, files, q.0, q.1)
  {
    var listed := Listed(stats, standard, files);
    LastColumn(stats, standard, files);
    FilesRowIsTwelve(stats, standard);
    FormatAt(listed, |stats| + 1, 12, width, q);
    ListedAt(stats, standard, files, q);
    if InGrid(q, |stats| + 1, 12) {
      assert At(listed, q) == Materialised(Unformatted(stats, standard, files, q));
      GridMatches(stats, standard, files, q);
    } else {
      OutsideMatches(stats, standard, files, q);
    }
  }

  /** The imperial conversion of a statistics table keeps its shape. */
  lemma StandardMirrors(stats: Table)
    requires StatsShape(stats) && ToStandard(stats).Some?
    ensures Mirrors(stats, ToStandard(stats).value)
  {
    var standard := ToStandard(stats).value;
    forall c | 0 <= c < |standard|
      ensures |standard[c].cells| == 2
    {
      assert |stats[c].cells| == 2;
    }
  }

  /** The whole report, cell by cell: whenever the imperial conversion
      succeeds, the sheet holds exactly the layout `Expected` describes. */
  lemma SaveToExcelLayout(stats: Table, files: seq<Cell>, width: int, q: Pos)
    requires StatsShape(stats) && ToStandard(stats).Some?
    ensures SaveToExcel(stats, files, width).Some?
    ensures Mirrors(stats, ToStandard(stats).value)
    ensures Lookup(SaveToExcel(stats, files, width).value, q) ==
      Expected(stats, ToStandard(stats).value, files, q.0, q.1)
  {
    StandardMirrors(stats);
    var standard := ToStandard(stats).value;
    var listed := Listed(stats, standard, files);
    assert SaveToExcel(stats, files, width) == Some(Format(listed, MaxColumn(listed), FilesRow(stats, standard), width));
    ReportAt(stats, standard, files, width, q);
  }

  /** Every step before the formatting pass leaves the column widths alone. */
  lemma ListedWidths(stats: Table, standard: Table, files: seq<Cell>)
    requires Mirrors(stats, standard)
    ensures Listed(stats, standard, files).widths == map[]
  {
    WriteHeadersWidths(Empty, stats, 1, 1);
    WriteBlockWidths(WriteHeaders(Empty, stats, 1, 1), stats, 2, 1);
    WriteBlockWidths(WriteFrame(stats), standard, StartRow(stats), 1);
    InsertColumnWidths(Both(stats, standard), 1);
    WriteHeadersWidths(LabelColumn(PlaceTables(stats, standard), StartRow(stats)), standard, ImperialHeaderRow, 2);
    var l := Labelled(stats, standard);
    WriteDownWidths(Embolden(Put(l, (FilesRow(stats, standard), 2), Text("Processed Files:")), (FilesRow(stats, standard), 2)), files, FilesRow(stats, standard) + 1, 1);
  }

  /** Columns A up to the last table column, and no others, get the width
      the caller asks for. */
  lemma SaveToExcelWidths(stats: Table, files: seq<Cell>, width: int, c: int)
    requires StatsShape(stats) && ToStandard(stats).Some?
    ensures SaveToExcel(stats, files, width).Some?
    ensures var w := SaveToExcel(stats, files, width).value.widths;
      && (c in w <==> 1 <= c <= |stats| + 1)
      && (c in w ==> w[c] == width)
  {
    StandardMirrors(stats);
    var standard := ToStandard(stats).value;
    var listed := Listed(stats, standard, files);
    ListedWidths(stats, standard, files);
    LastColumn(stats, standard, files);
    FormatWidths(listed, |stats| + 1, FilesRow(stats, standard), width, c);
  }
}

=== FILE: sheet.dfy ===
/** The worksheet as the report builder sees it through openpyxl: a sparse
    map from (row, column) to a cell holding a value and three formatting
    attributes, plus the column widths. Only the operations the report uses
    are modelled; each comes with a lemma stating, position by position, what
    it leaves on the sheet. */
module Sheet {
  import opened Frame

  /** (row, column), both counted from 1 as a spreadsheet counts them. */
  type Pos = (int, int)

  /** A cell: its value, a bold font, the three-decimal number style, and
      wrapped-text alignment. */
  datatype Entry = Entry(value: Cell, bold: bool, decimal: bool, wrap: bool)

  /** What an absent cell looks like once openpyxl creates it. */
  const Fresh: Entry := Entry(Blank, false, false, false)

  datatype Sheet = Sheet(cells: map<Pos, Entry>, widths: map<int, int>)

  const Empty: Sheet := Sheet(map[], map[])

  /** The cell at `p`, as `sheet.cell(row, column)` returns it. */
  function At(s: Sheet, p: Pos): Entry {
    if p in s.cells then s.cells[p] else Fresh
  }

  /** `sheet.cell(row, column, value=v)`: only the value changes. */
  function Put(s: Sheet, p: Pos, v: Cell): Sheet {
    s.(cells := s.cells[p := At(s, p).(value := v)])
  }

  /** `cell.font = Font(bold=True)`: only the font changes. */
  function Embolden(s: Sheet, p: Pos): Sheet {
    s.(cells := s.cells[p := At(s, p).(bold := true)])
  }

  /** `y` is the least element of `xs` above `floor`. */
  predicate LeastAbove(xs: set<int>, floor: int, y: int) {
    y in xs && y > floor && forall x | x in xs && x > floor :: y <= x
  }

  /** Among the elements of `xs` above `floor` there is a least one. */
  lemma {:induction false} HasLeastAbove(xs: set<int>, floor: int)
    requires exists z :: z in xs && z > floor
    ensures exists y :: LeastAbove(xs, floor, y)
    decreases xs
  {
    var z :| z in xs && z > floor;
    var rest := xs - {z};
    assert forall x | x in xs :: x == z || x in rest;
    if forall x | x in rest && x > floor :: z <= x {
      assert LeastAbove(xs, floor, z);
    } else {
      var w :| w in rest && w > floor && w < z;
      HasLeastAbove(rest, floor);
      var y :| LeastAbove(rest, floor, y);
      assert y <= w;
      assert LeastAbove(xs, floor, y);
    }
  }

  /** The greatest of `xs` and `floor`, found by climbing from `floor` to the
      next element above it until none is left. */
  function MaxOf(xs: set<int>, floor: int): (m: int)
    ensures floor <= m
    decreases xs
  {
    if forall x | x in xs :: x <= floor then floor
    else
      HasLeastAbove(xs, floor);
      var y :| LeastAbove(xs, floor, y);
      MaxOf(xs - {y}, y)
  }

  /** No element of `xs` exceeds `MaxOf(xs, floor)`, and it is `floor` or an
      element of `xs`. */
  lemma {:induction false} MaxOfBounds(xs: set<int>, floor: int)
    ensures forall x | x in xs :: x <= MaxOf(xs, floor)
    ensures MaxOf(xs, floor) == floor || MaxOf(xs, floor) in xs
    decreases xs
  {
    if !forall x | x in xs :: x <= floor {
      HasLeastAbove(xs, floor);
      var y :| LeastAbove(xs, floor, y);
      MaxOfBounds(xs - {y}, y);
      assert MaxOf(xs, floor) == MaxOf(xs - {y}, y);
      forall x | x in xs
        ensures x <= MaxOf(xs, floor)
      {
        if x != y && x > floor {
          assert x in xs - {y};
        }
      }
    }
  }

  /** openpyxl's `max_row`: the lowest row holding a cell, 1 on an empty sheet. */
  function MaxRow(s: Sheet): (m: int)
    ensures 1 <= m
  {
    MaxOf(set p: Pos | p in s.cells :: p.0, 1)
  }

  /** No cell lies below `max_row`, and unless it is 1 some cell lies on it. */
  lemma MaxRowBounds(s: Sheet)
    ensures forall p: Pos | p in s.cells :: p.0 <= MaxRow(s)
    ensures MaxRow(s) == 1 || exists p: Pos :: p in s.cells && p.0 == MaxRow(s)
  {
    var rows := set p: Pos | p in s.cells :: p.0;
    MaxOfBounds(rows, 1);
    assert forall p: Pos | p in s.cells :: p.0 in rows;
  }

  /** openpyxl's `max_column`: the rightmost column holding a cell, 1 on an
      empty sheet. */
  function MaxColumn(s: Sheet): (m: int)
    ensures 1 <= m
  {
    MaxOf(set p: Pos | p in s.cells :: p.1, 1)
  }

  /** No cell lies right of `max_column`, and unless it is 1 some cell lies
      in it. */
  lemma MaxColumnBounds(s: Sheet)
    ensures forall p: Pos | p in s.cells :: p.1 <= MaxColumn(s)
    ensures MaxColumn(s) == 1 || exists p: Pos :: p in s.cells && p.1 == MaxColumn(s)
  {
    var cols := set p: Pos | p in s.cells :: p.1;
    MaxOfBounds(cols, 1);
    assert forall p: Pos | p in s.cells :: p.1 in cols;
  }

  /** `max_row` is pinned down by a cell in row `m` and no cell below it. */
  lemma MaxRowIs(s: Sheet, m: int, w: Pos)
    requires 1 <= m && w in s.cells && w.0 == m
    requires forall p: Pos | p in s.cells :: p.0 <= m
    ensures MaxRow(s) == m
  {
    MaxRowBounds(s);
    var r := MaxRow(s);
    assert w.0 <= r;
    if r != 1 {
      var p: Pos :| p in s.cells && p.0 == r;
    }
  }

  /** `max_column` is pinned down by a cell in column `m` and no cell right
      of it. */
  lemma MaxColumnIs(s: Sheet, m: int, w: Pos)
    requires 1 <= m && w in s.cells && w.1 == m
    requires forall p: Pos | p in s.cells :: p.1 <= m
    ensures MaxColumn(s) == m
  {
    MaxColumnBounds(s);
    var r := MaxColumn(s);
    assert w.1 <= r;
    if r != 1 {
      var p: Pos :| p in s.cells && p.1 == r;
    }
  }

  /** Position `p` lies in rows 1 to `rows` and columns `left` to `right`. */
  predicate InRect(p: Pos, rows: int, left: int, right: int) {
    1 <= p.0 <= rows && left <= p.1 <= right
  }

  /** `sheet.cell(row, column)` without a value: the cell is created empty
      when it is missing, and nothing changes otherwise. */
  function Touch(s: Sheet, p: Pos): Sheet {
    s.(cells := s.cells[p := At(s, p)])
  }

  /** Visits rows 1 to `rows` of column `col`. */
  function VisitColumn(s: Sheet, rows: int, col: int): Sheet
    decreases rows
  {
    if rows < 1 then s else Touch(VisitColumn(s, rows - 1, col), (rows, col))
  }

  lemma {:induction false} VisitColumnAt(s: Sheet, rows: int, col: int, q: Pos)
    ensures var r := VisitColumn(s, rows, col);
      && (q in r.cells <==> q in s.cells || InRect(q, rows, col, col))
      && At(r, q) == At(s, q)
      && r.widths == s.widths
    decreases rows
  {
    if rows >= 1 {
      VisitColumnAt(s, rows - 1, col, q);
    }
  }

  /** Visits rows 1 to `rows` of every column from `left` to `right`, as
      iterating over those columns does. */
  function Visit(s: Sheet, rows: int, left: int, right: int): Sheet
    decreases right - left
  {
    if right < left then s else VisitColumn(Visit(s, rows, left, right - 1), rows, right)
  }

  /** Visiting creates an empty cell at every missing position of the block
      and changes nothing else. */
  lemma {:induction false} VisitAt(s: Sheet, rows: int, left: int, right: int, q: Pos)
    ensures var r := Visit(s, rows, left, right);
      && (q in r.cells <==> q in s.cells || InRect(q, rows, left, right))
      && At(r, q) == At(s, q)
      && r.widths == s.widths
    decreases right - left
  {
    if right >= left {
      VisitAt(s, rows, left, right - 1, q);
      VisitColumnAt(Visit(s, rows, left, right - 1), rows, right, q);
    }
  }

  /** Before moving anything, `insert_cols(idx)` visits every position of rows
      1 to `max_row` from column `idx` to `max_column`. */
  function Filled(s: Sheet, idx: int): Sheet {
    Visit(s, MaxRow(s), idx, MaxColumn(s))
  }

  /** Where the shift moves the cell at `p`. */
  function Moved(p: Pos, idx: int): Pos {
    if p.1 >= idx then (p.0, p.1 + 1) else p
  }

  /** Every cell at column `idx` or to its right moves one column right,
      keeping its value and formatting. */
  function Shift(s: Sheet, idx: int): Sheet {
    var targets := set p: Pos | p in s.cells :: Moved(p, idx);
    s.(cells := map q: Pos | q in targets ::
                  if q.1 > idx && (q.0, q.1 - 1) in s.cells then s.cells[(q.0, q.1 - 1)] else At(s, q))
  }

  /** After the shift column `idx` is empty and everything from it on is
      found one column further right. */
  lemma ShiftAt(s: Sheet, idx: int, q: Pos)
    ensures var r := Shift(s, idx);
      && (q in r.cells <==> (q.1 < idx && q in s.cells) || (q.1 > idx && (q.0, q.1 - 1) in s.cells))
      && At(r, q) == (if q.1 < idx then At(s, q) else if q.1 == idx then Fresh else At(s, (q.0, q.1 - 1)))
      && r.widths == s.widths
  {
    var targets := set p: Pos | p in s.cells :: Moved(p, idx);
    if q.1 < idx && q in s.cells {
      assert Moved(q, idx) == q;
      assert q in targets;
    }
    if q.1 > idx && (q.0, q.1 - 1) in s.cells {
      assert Moved((q.0, q.1 - 1), idx) == q;
      assert q in targets;
    }
    if q in targets {
      var p :| p in s.cells && Moved(p, idx) == q;
      assert q.1 != idx;
    }
  }

  /** `insert_cols(idx)`: the block from column `idx` to `max_column` is
      filled with empty cells, then shifted one column right. Column widths
      stay where they are. */
  function InsertColumn(s: Sheet, idx: int): Sheet {
    Shift(Filled(s, idx), idx)
  }

  /** After `insert_cols(idx)` column `idx` is empty; everything from it on,
      and an empty cell for every gap of the block up to `max_row` and
      `max_column`, is found one column further right. */
  lemma InsertColumnAt(s: Sheet, idx: int, q: Pos)
    ensures var r := InsertColumn(s, idx);
      && (q in r.cells <==>
            || (q.1 < idx && q in s.cells)
            || (q.1 > idx && ((q.0, q.1 - 1) in s.cells || InRect((q.0, q.1 - 1), MaxRow(s), idx, MaxColumn(s)))))
      && At(r, q) == (if q.1 < idx then At(s, q) else if q.1 == idx then Fresh else At(s, (q.0, q.1 - 1)))
      && r.widths == s.widths
  {
    VisitAt(s, MaxRow(s), idx, MaxColumn(s), q);
    VisitAt(s, MaxRow(s), idx, MaxColumn(s), (q.0, q.1 - 1));
    ShiftAt(Filled(s, idx), idx, q);
  }

  /** Writes `cells` down column `col`, one per row, the first in row `row`:
      the loop that writes the processed files. */
  function WriteDown(s: Sheet, cells: seq<Cell>, row: int, col: int): Sheet
    decreases |cells|
  {
    if |cells| == 0 then s
    else
      var n := |cells| - 1;
      Put(WriteDown(s, cells[..n], row, col), (row + n, col), cells[n])
  }

  /** Value `j` of the list lands in row `row + j`; nothing else changes. */
  lemma {:induction false} WriteDownAt(s: Sheet, cells: seq<Cell>, row: int, col: int, q: Pos)
    ensures var r := WriteDown(s, cells, row, col);
      && (q in r.cells <==> q in s.cells || (q.1 == col && row <= q.0 < row + |cells|))
      && At(r, q) == (if q.1 == col && row <= q.0 < row + |cells| then At(s, q).(value := cells[q.0 - row]) else At(s, q))
      && r.widths == s.widths
    decreases |cells|
  {
    if |cells| > 0 {
      var n := |cells| - 1;
      WriteDownAt(s, cells[..n], row, col, q);
      if q.1 == col && row <= q.0 < row + n {
        assert cells[..n][q.0 - row] == cells[q.0 - row];
      }
    }
  }

  /** Position `p` lies in the block a table's values occupy when its first
      value sits at (`row`, `col`). */
  predicate InBlock(t: Table, row: int, col: int, p: Pos) {
    col <= p.1 < col + |t| && row <= p.0 < row + |t[p.1 - col].cells|
  }

  /** Writes the values of `t` column by column, value `j` of column `c` at
      (`row + j`, `col + c`): the nested loop over `iterrows()` and the
      values of each row. */
  function WriteBlock(s: Sheet, t: Table, row: int, col: int): Sheet
    decreases |t|
  {
    if |t| == 0 then s
    else
      var n := |t| - 1;
      WriteDown(WriteBlock(s, t[..n], row, col), t[n].cells, row, col + n)
  }

  /** Value `j` of column `c` lands at (`row + j`, `col + c`); nothing else
      changes. */
  lemma {:induction false} WriteBlockAt(s: Sheet, t: Table, row: int, col: int, q: Pos)
    ensures var r := WriteBlock(s, t, row, col);
      && (q in r.cells <==> q in s.cells || InBlock(t, row, col, q))
      && At(r, q) == (if InBlock(t, row, col, q) then At(s, q).(value := t[q.1 - col].cells[q.0 - row]) else At(s, q))
      && r.widths == s.widths
    decreases |t|
  {
    if |t| > 0 {
      var n := |t| - 1;
      WriteBlockAt(s, t[..n], row, col, q);
      WriteDownAt(WriteBlock(s, t[..n], row, col), t[n].cells, row, col + n, q);
      if col <= q.1 < col + n {
        assert t[..n][q.1 - col] == t[q.1 - col];
      }
    }
  }

  /** Writes the column names of `t` in bold along row `row`, the first at
      column `col`. */
  function WriteHeaders(s: Sheet, t: Table, row: int, col: int): Sheet
    decreases |t|
  {
    if |t| == 0 then s
    else
      var n := |t| - 1;
      Embolden(Put(WriteHeaders(s, t[..n], row, col), (row, col + n), Text(t[n].name)), (row, col + n))
  }

  /** Name `c` lands, bold, at (`row`, `col + c`); nothing else changes. */
  lemma {:induction false} WriteHeadersAt(s: Sheet, t: Table, row: int, col: int, q: Pos)
    ensures var r := WriteHeaders(s, t, row, col);
      && (q in r.cells <==> q in s.cells || (q.0 == row && col <= q.1 < col + |t|))
      && At(r, q) == (if q.0 == row && col <= q.1 < col + |t| then At(s, q).(value := Text(t[q.1 - col].name), bold := true) else At(s, q))
      && r.widths == s.widths
    decreases |t|
  {
    if |t| > 0 {
      var n := |t| - 1;
      WriteHeadersAt(s, t[..n], row, col, q);
      if q.0 == row && col <= q.1 < col + n {
        assert t[..n][q.1 - col] == t[q.1 - col];
      }
    }
  }

  /** Visiting the rows of one column leaves the column widths alone. */
  lemma {:induction false} VisitColumnWidths(s: Sheet, rows: int, col: int)
    ensures VisitColumn(s, rows, col).widths == s.widths
    decreases rows
  {
    if rows >= 1 {
      VisitColumnWidths(s, rows - 1, col);
    }
  }

  /** Visiting a block leaves the column widths alone. */
  lemma {:induction false} VisitWidths(s: Sheet, rows: int, left: int, right: int)
    ensures Visit(s, rows, left, right).widths == s.widths
    decreases right - left
  {
    if right >= left {
      VisitWidths(s, rows, left, right - 1);
      VisitColumnWidths(Visit(s, rows, left, right - 1), rows, right);
    }
  }

  /** `insert_cols` leaves the column widths where they were. */
  lemma InsertColumnWidths(s: Sheet, idx: int)
    ensures InsertColumn(s, idx).widths == s.widths
  {
    VisitWidths(s, MaxRow(s), idx, MaxColumn(s));
  }

  /** Writing a list down a column leaves the column widths alone. */
  lemma {:induction false} WriteDownWidths(s: Sheet, cells: seq<Cell>, row: int, col: int)
    ensures WriteDown(s, cells, row, col).widths == s.widths
    decreases |cells|
  {
    if |cells| > 0 {
      WriteDownWidths(s, cells[..|cells| - 1], row, col);
    }
  }

  /** Writing a table's values leaves the column widths alone. */
  lemma {:induction false} WriteBlockWidths(s: Sheet, t: Table, row: int, col: int)
    ensures WriteBlock(s, t, row, col).widths == s.widths
    decreases |t|
  {
    if |t| > 0 {
      var n := |t| - 1;
      WriteBlockWidths(s, t[..n], row, col);
      WriteDownWidths(WriteBlock(s, t[..n], row, col), t[n].cells, row, col + n);
    }
  }

  /** Writing a table's names leaves the column widths alone. */
  lemma {:induction false} WriteHeadersWidths(s: Sheet, t: Table, row: int, col: int)
    ensures WriteHeaders(s, t, row, col).widths == s.widths
    decreases |t|
  {
    if |t| > 0 {
      WriteHeadersWidths(s, t[..|t| - 1], row, col);
    }
  }
}

=== FILE: strings.dfy ===
/** Python's substring test (`w in s`) and `str.replace`, with the facts the
    unit converters rely on: a replaced marker leaves no trace of itself, a
    word unrelated to the markers is neither created nor destroyed, and
    swapping two markers back and forth restores the original text. */
module Strings {

  /** `s` begins with `w`. */
  predicate StartsWith(s: string, w: string) {
    |w| <= |s| && s[..|w|] == w
  }

  /** Python's `w in s`: some suffix of `s` begins with `w`. */
  predicate Contains(s: string, w: string)
    decreases |s|
  {
    StartsWith(s, w) || (|s| > 0 && Contains(s[1..], w))
  }

  /** `w` occurs in `s` starting at index `i`. */
  predicate OccursAt(s: string, w: string, i: int) {
    0 <= i && i + |w| <= |s| && s[i..i + |w|] == w
  }

  /** Python's `s.replace(p, q)`: occurrences of `p` are found from the left
      and do not overlap; each is replaced by `q`. */
  function ReplaceAll(s: string, p: string, q: string): (r: string)
    requires |p| > 0
    ensures !Contains(s, p) ==> r == s
    ensures Contains(s, p) ==> Contains(r, q)
    decreases |s|
  {
    if |s| == 0 then ""
    else if StartsWith(s, p) then
      var rest := ReplaceAll(s[|p|..], p, q);
      assert StartsWith(q + rest, q) by { assert (q + rest)[..|q|] == q; }
      q + rest
    else
      var rest := ReplaceAll(s[1..], p, q);
      assert ([s[0]] + rest)[1..] == rest;
      [s[0]] + rest
  }

  /** Two unit markers that share their lead character (the micro sign),
      differ in the character after it, and do not repeat the lead character. */
  predicate Swappable(p: string, q: string) {
    && |p| >= 2 && |q| >= 2
    && p[0] == q[0] && p[1] != q[1]
    && p[0] !in p[1..] && q[0] !in q[1..]
  }

  /** The recursive test agrees with the index-based one. */
  lemma {:induction false} ContainsIffOccurs(s: string, w: string)
    ensures Contains(s, w) <==> exists i :: OccursAt(s, w, i)
    decreases |s|
  {
    if Contains(s, w) {
      if StartsWith(s, w) {
        assert OccursAt(s, w, 0);
      } else {
        ContainsIffOccurs(s[1..], w);
        var i :| OccursAt(s[1..], w, i);
        assert s[1..][i..i + |w|] == s[i + 1..i + 1 + |w|];
        assert OccursAt(s, w, i + 1);
      }
    }
    if exists i :: OccursAt(s, w, i) {
      var i :| OccursAt(s, w, i);
      if i == 0 {
        assert StartsWith(s, w);
      } else {
        assert s[1..][i - 1..i - 1 + |w|] == s[i..i + |w|];
        assert OccursAt(s[1..], w, i - 1);
        ContainsIffOccurs(s[1..], w);
      }
    }
  }

  /** What a suffix contains, the whole string contains. */
  lemma {:induction false} ContainsSuffix(s: string, k: nat, w: string)
    requires k <= |s|
    requires Contains(s[k..], w)
    ensures Contains(s, w)
    decreases k
  {
    if k > 0 {
      assert s[1..][k - 1..] == s[k..];
      ContainsSuffix(s[1..], k - 1, w);
    }
  }

  /** An occurrence of `w` in `a + x` cannot start inside `a` when `a` lacks
      the first character of `w`. */
  lemma {:induction false} ContainsPastPrefix(a: string, x: string, w: string)
    requires |w| > 0 && w[0] !in a
    requires Contains(a + x, w)
    ensures Contains(x, w)
    decreases |a|
  {
    if |a| == 0 {
      assert a + x == x;
    } else {
      assert (a + x)[0] == a[0];
      assert !StartsWith(a + x, w);
      assert (a + x)[1..] == a[1..] + x;
      ContainsPastPrefix(a[1..], x, w);
    }
  }

  /** If the replaced text begins with `w`, and `w` lacks the first character
      of the replacement, then the original text began with `w` too. */
  lemma {:induction false} PrefixSurvives(x: string, p: string, q: string, w: string)
    requires |p| > 0 && |q| > 0 && q[0] !in w
    requires StartsWith(ReplaceAll(x, p, q), w)
    ensures StartsWith(x, w)
    decreases |w|
  {
    if |w| > 0 {
      var r := ReplaceAll(x, p, q);
      assert r[0] == w[0];
      assert |x| > 0;
      assert !StartsWith(x, p);
      var rest := ReplaceAll(x[1..], p, q);
      assert r == [x[0]] + rest;
      assert x[0] == w[0];
      assert rest[..|w| - 1] == r[1..|w|] == w[1..];
      assert StartsWith(rest, w[1..]);
      PrefixSurvives(x[1..], p, q, w[1..]);
      assert x[..|w|] == [x[0]] + x[1..][..|w| - 1];
    }
  }

  /** After `replace(p, q)` no `p` is left, for swappable markers. */
  lemma {:induction false} NoMarkerLeft(s: string, p: string, q: string)
    requires Swappable(p, q)
    ensures !Contains(ReplaceAll(s, p, q), p)
    decreases |s|
  {
    var r := ReplaceAll(s, p, q);
    if |s| == 0 {
      assert !StartsWith(r, p);
    } else if StartsWith(s, p) {
      var rest := ReplaceAll(s[|p|..], p, q);
      NoMarkerLeft(s[|p|..], p, q);
      assert r == q + rest;
      assert r[1] == q[1] != p[1];
      assert !StartsWith(r, p);
      assert r[1..] == q[1..] + rest;
      if Contains(r[1..], p) {
        ContainsPastPrefix(q[1..], rest, p);
      }
    } else {
      var rest := ReplaceAll(s[1..], p, q);
      NoMarkerLeft(s[1..], p, q);
      assert r == [s[0]] + rest;
      if StartsWith(r, p) {
        assert s[0] == p[0];
        assert rest[..|p| - 1] == r[1..|p|] == p[1..];
        PrefixSurvives(s[1..], p, q, p[1..]);
        assert false;
      }
      assert r[1..] == rest;
    }
  }

  /** A word that shares no character with the replacement at the relevant
      ends is never created by `replace(p, q)`. */
  lemma {:induction false} WordNotCreated(s: string, p: string, q: string, w: string)
    requires |p| > 0 && |q| > 0 && |w| > 0
    requires w[0] !in q && q[0] !in w
    requires Contains(ReplaceAll(s, p, q), w)
    ensures Contains(s, w)
    decreases |s|
  {
    var r := ReplaceAll(s, p, q);
    if |s| == 0 {
      assert false;
    } else if StartsWith(s, p) {
      var rest := ReplaceAll(s[|p|..], p, q);
      assert r == q + rest;
      ContainsPastPrefix(q, rest, w);
      WordNotCreated(s[|p|..], p, q, w);
      ContainsSuffix(s, |p|, w);
    } else {
      var rest := ReplaceAll(s[1..], p, q);
      assert r == [s[0]] + rest;
      if StartsWith(r, w) {
        assert s[0] == w[0];
        assert rest[..|w| - 1] == r[1..|w|] == w[1..];
        PrefixSurvives(s[1..], p, q, w[1..]);
        assert s[..|w|] == [s[0]] + s[1..][..|w| - 1];
      } else {
        assert r[1..] == rest;
        WordNotCreated(s[1..], p, q, w);
        ContainsSuffix(s, 1, w);
      }
    }
  }

  /** Swapping `p` for `q` and back restores any text that held no `q`. */
  lemma {:induction false} SwapRoundTrip(s: string, p: string, q: string)
    requires Swappable(p, q)
    requires !Contains(s, q)
    ensures ReplaceAll(ReplaceAll(s, p, q), q, p) == s
    decreases |s|
  {
    var r := ReplaceAll(s, p, q);
    if |s| == 0 {
    } else if StartsWith(s, p) {
      var rest := ReplaceAll(s[|p|..], p, q);
      assert r == q + rest;
      if Contains(s[|p|..], q) {
        ContainsSuffix(s, |p|, q);
      }
      SwapRoundTrip(s[|p|..], p, q);
      assert StartsWith(r, q) by { assert r[..|q|] == q; }
      assert r[|q|..] == rest;
      assert ReplaceAll(r, q, p) == p + s[|p|..];
      assert p + s[|p|..] == s;
    } else {
      var rest := ReplaceAll(s[1..], p, q);
      assert r == [s[0]] + rest;
      if StartsWith(r, q) {
        assert s[0] == q[0];
        assert rest[..|q| - 1] == r[1..|q|] == q[1..];
        PrefixSurvives(s[1..], p, q, q[1..]);
        assert false;
      }
      SwapRoundTrip(s[1..], p, q);
      assert r[1..] == rest;
      assert ReplaceAll(r, q, p) == [s[0]] + s[1..];
    }
  }
}

=== FILE: units.dfy ===
/** The two unit converters of taylorh.py: `convert_to_metric` and
    `convert_to_standard`. Columns are chosen by substring tests on their
    names; a chosen column has its unit marker replaced in its name and its
    values scaled by 0.0254 (micrometres per microinch). */
module Units {
  import opened Wrappers
  import opened Strings
  import opened Frame

  const MicroInch: string := "µin"
  const MicroMetre: string := "µm"
  /** Relative material ratio: a percentage, never converted. */
  const Ratio: string := "Rmr"
  /** Micrometres per microinch. */
  const Factor: real := 0.0254

  /** The unit system a conversion produces. */
  datatype System = Metric | Imperial

  /** The marker a conversion looks for in a column name. */
  function Source(target: System): string {
    if target == Metric then MicroInch else MicroMetre
  }

  /** The marker that replaces it. */
  function Destination(target: System): string {
    if target == Metric then MicroMetre else MicroInch
  }

  /** `convert_to_metric` skips the two identity columns; `convert_to_standard`
      looks at every column. */
  function FirstIndex(target: System): nat {
    if target == Metric then 2 else 0
  }

  /** The selection test of both converters. */
  predicate Chosen(target: System, i: int, name: string) {
    i >= FirstIndex(target) && Contains(name, Source(target)) && !Contains(name, Ratio)
  }

  /** Multiply by the factor towards metric, divide by it towards imperial. */
  function Scale(target: System, x: real): real {
    if target == Metric then x * Factor else x / Factor
  }

  /** One value after scaling: NaN stays NaN. */
  function ScaledCell(target: System, c: Cell): Cell {
    if c.Num? then Num(Scale(target, c.x)) else c
  }

  /** Scales a whole column; pandas raises a TypeError when the column holds
      text or dates, which is `None` here. */
  function ScaleCells(target: System, cells: seq<Cell>): (r: Option<seq<Cell>>)
    ensures r.Some? <==> IsNumeric(cells)
    ensures r.Some? ==> |r.value| == |cells|
    ensures r.Some? ==> forall j | 0 <= j < |cells| :: r.value[j] == ScaledCell(target, cells[j])
    decreases |cells|
  {
    if |cells| == 0 then Some([])
    else
      var front :- ScaleCells(target, cells[..|cells| - 1]);
      var last := cells[|cells| - 1];
      if last.Num? || last.Blank? then Some(front + [ScaledCell(target, last)]) else None
  }

  /** The converter's treatment of the column at index `i`. */
  function ConvertColumn(target: System, i: int, c: Column): (r: Option<Column>)
    ensures !Chosen(target, i, c.name) ==> r == Some(c)
    ensures Chosen(target, i, c.name) ==> (r.Some? <==> IsNumeric(c.cells))
    ensures Chosen(target, i, c.name) && r.Some? ==>
      && r.value.name == ReplaceAll(c.name, Source(target), Destination(target))
      && |r.value.cells| == |c.cells|
      && forall j | 0 <= j < |c.cells| :: r.value.cells[j] == ScaledCell(target, c.cells[j])
  {
    if Chosen(target, i, c.name) then
      var cells :- ScaleCells(target, c.cells);
      Some(Column(ReplaceAll(c.name, Source(target), Destination(target)), cells))
    else Some(c)
  }

  /** Converts every column in place of its index; fails as a whole when any
      chosen column cannot be scaled. */
  function Convert(target: System, t: Table): (r: Option<Table>)
    ensures r.Some? <==> forall i | 0 <= i < |t| :: ConvertColumn(target, i, t[i]).Some?
    ensures r.Some? ==> |r.value| == |t|
    ensures r.Some? ==> forall i | 0 <= i < |t| :: ConvertColumn(target, i, t[i]) == Some(r.value[i])
    decreases |t|
  {
    if |t| == 0 then Some([])
    else
      var front :- Convert(target, t[..|t| - 1]);
      var last :- ConvertColumn(target, |t| - 1, t[|t| - 1]);
      Some(front + [last])
  }

  /** Two columns the converter would choose carry the same name. The source
      addresses a column by its name: the first visit converts and renames
      every column of that name, so the second visit finds the name gone and
      raises a KeyError. */
  predicate Clash(target: System, t: Table) {
    exists i, j | 0 <= i < j < |t| :: Chosen(target, i, t[i].name) && t[j].name == t[i].name
  }

  /** `convert_to_metric` (taylorh.py:84-89). */
  function ToMetric(t: Table): (r: Option<Table>)
    ensures r.Some? <==>
      && !(exists i, j | 2 <= i < j < |t| :: t[j].name == t[i].name && Contains(t[i].name, MicroInch) && !Contains(t[i].name, Ratio))
      && forall i | 2 <= i < |t| && Contains(t[i].name, MicroInch) && !Contains(t[i].name, Ratio) ::
        IsNumeric(t[i].cells)
    ensures r.Some? ==> |r.value| == |t|
    ensures r.Some? ==> forall i | 0 <= i < |t| ::
      if 2 <= i && Contains(t[i].name, MicroInch) && !Contains(t[i].name, Ratio) then
        && r.value[i].name == ReplaceAll(t[i].name, MicroInch, MicroMetre)
        && |r.value[i].cells| == |t[i].cells|
        && forall j | 0 <= j < |t[i].cells| ::
             r.value[i].cells[j] == (if t[i].cells[j].Num? then Num(t[i].cells[j].x * 0.0254) else Blank)
      else r.value[i] == t[i]
  {
    if Clash(Metric, t) then None else Convert(Metric, t)
  }

  /** `convert_to_standard` (taylorh.py:91-99); the input is a value and is
      never changed. */
  function ToStandard(t: Table): (r: Option<Table>)
    ensures r.Some? <==>
      && !(exists i, j | 0 <= i < j < |t| :: t[j].name == t[i].name && Contains(t[i].name, MicroMetre) && !Contains(t[i].name, Ratio))
      && forall i | 0 <= i < |t| && Contains(t[i].name, MicroMetre) && !Contains(t[i].name, Ratio) ::
        IsNumeric(t[i].cells)
    ensures r.Some? ==> |r.value| == |t|
    ensures r.Some? ==> forall i | 0 <= i < |t| ::
      if Contains(t[i].name, MicroMetre) && !Contains(t[i].name, Ratio) then
        && r.value[i].name == ReplaceAll(t[i].name, MicroMetre, MicroInch)
        && |r.value[i].cells| == |t[i].cells|
        && forall j | 0 <= j < |t[i].cells| ::
             r.value[i].cells[j] == (if t[i].cells[j].Num? then Num(t[i].cells[j].x / 0.0254) else Blank)
      else r.value[i] == t[i]
  {
    if Clash(Imperial, t) then None else Convert(Imperial, t)
  }

  /** `Sa, µm` names micrometres and is no ratio. */
  lemma MicroMetreNamed()
    ensures Contains("Sa, µm", MicroMetre) && !Contains("Sa, µm", Ratio)
  {
    var name := "Sa, µm";
    assert OccursAt(name, MicroMetre, 4);
    ContainsIffOccurs(name, MicroMetre);
    assert name + "" == name;
    if Contains(name + "", Ratio) {
      ContainsPastPrefix(name, "", Ratio);
      assert false;
    }
  }

  /** Two statistics columns both named `Sa, µm`: the imperial conversion
      fails although both columns are numeric. */
  lemma RepeatedNameFails()
    ensures var c := Column("Sa, µm", [Num(1.0), Num(0.5)]);
      ToStandard([c, c]).None?
  {
    var c := Column("Sa, µm", [Num(1.0), Num(0.5)]);
    MicroMetreNamed();
    assert Chosen(Imperial, 0, [c, c][0].name) && [c, c][1].name == [c, c][0].name;
  }

  /** The markers are the micro sign followed by distinct letters. */
  lemma MarkersSwappable()
    ensures Swappable(MicroInch, MicroMetre) && Swappable(MicroMetre, MicroInch)
  {
  }

  /** One column there and back: an imperial length column (not a ratio, and
      not already naming micrometres) comes back with its name and values. */
  lemma ColumnRoundTrip(i: int, c: Column)
    requires 2 <= i
    requires Contains(c.name, MicroInch) && !Contains(c.name, MicroMetre) && !Contains(c.name, Ratio)
    requires IsNumeric(c.cells)
    ensures ConvertColumn(Metric, i, c).Some?
    ensures ConvertColumn(Imperial, i, ConvertColumn(Metric, i, c).value) == Some(c)
  {
    MarkersSwappable();
    var m := ConvertColumn(Metric, i, c).value;
    assert Contains(m.name, MicroMetre);
    if Contains(m.name, Ratio) {
      WordNotCreated(c.name, MicroInch, MicroMetre, Ratio);
    }
    SwapRoundTrip(c.name, MicroInch, MicroMetre);
    assert IsNumeric(m.cells);
    var back := ConvertColumn(Imperial, i, m).value;
    assert back.cells == c.cells;
  }

  /** The round trip at table level: after `convert_to_metric` succeeds, such
      a column converts back to itself, so wherever `convert_to_standard`
      succeeds on the metric table it restores the column exactly (over exact
      reals). */
  lemma MetricThenStandard(t: Table, i: int)
    requires 2 <= i < |t|
    requires Contains(t[i].name, MicroInch) && !Contains(t[i].name, MicroMetre) && !Contains(t[i].name, Ratio)
    requires ToMetric(t).Some?
    ensures ConvertColumn(Imperial, i, ToMetric(t).value[i]) == Some(t[i])
    ensures ToStandard(ToMetric(t).value).Some? ==> ToStandard(ToMetric(t).value).value[i] == t[i]
  {
    assert IsNumeric(t[i].cells);
    ColumnRoundTrip(i, t[i]);
    var m := ToMetric(t).value;
    assert ConvertColumn(Metric, i, t[i]) == Some(m[i]);
    if ToStandard(m).Some? {
      assert ConvertColumn(Imperial, i, m[i]) == Some(ToStandard(m).value[i]);
    }
  }

  /** A converted table has nothing left to convert: converting again is the
      identity. */
  lemma ConvertIdempotent(target: System, t: Table)
    requires Convert(target, t).Some?
    ensures Convert(target, Convert(target, t).value) == Convert(target, t)
  {
    MarkersSwappable();
    var m := Convert(target, t).value;
    forall i | 0 <= i < |t|
      ensures ConvertColumn(target, i, m[i]) == Some(m[i])
    {
      if Chosen(target, i, t[i].name) {
        NoMarkerLeft(t[i].name, Source(target), Destination(target));
      }
    }
    var again := Convert(target, m).value;
    assert again == m;
  }
}

=== FILE: wrappers.dfy ===
/** The Option datatype used for every operation of the model that can fail
    (a cancelled file choice, an exception the source catches or lets escape). */
module Wrappers {

  datatype Option<+T> = None | Some(value: T) {

    /** The `:-` operator stops at `None`. */
    predicate IsFailure() {
      None?
    }

    /** What `:-` yields when it stops: `None` again, at the caller's type. */
    function PropagateFailure<U>(): Option<U>
      requires None?
    {
      None
    }

    /** What `:-` continues with: the wrapped value. */
    function Extract(): T
      requires Some?
    {
      value
    }
  }
}
